=== FILE: README.md ===
# Judge-profile dashboard: aggregation and recommendation core

The repository has three near-identical Streamlit dashboards. Each one loads a
table of judicial decisions with the columns `Juiz`, `Resultado`,
`Tese da Defesa` and `Fundamentação da Decisão`. It lists the judges and shows
one judge's profile, or two judges side by side. A profile holds the number of
decisions, the share of "Procedente" and "Improcedente" outcomes, the
frequency table of defence theses and the first justifications. It also gives
a strategic recommendation. Two dashboards compute that recommendation with
a fixed rule; the third asks a language model. A profile can be exported as
a PDF.

This Dafny project models the computation behind those screens as pure
functions over a `seq<Decision>`, and proves what each step promises:

- `decisions.dfy` (`Decisions`): the record and its columns. A missing cell
  (pandas NaN) is `None`. The judge id is the text that `astype(str)` produced.
- `frequency.dfy` (`Frequency`): `dropna()`, `(col == v).sum()` and
  `value_counts()`. The frequency table is proved non-increasing and free of
  repeated items. Each row carries the exact count of its item, and the counts
  add up to the number of present values.
- `partition.dfy` (`Partition`): Python's string order, the sorted distinct
  judge list, the rows of one judge (order kept), and the second-judge
  candidate list of the comparison mode.
- `metrics.dfy` (`Metrics`): pandas' `mean()` of a boolean column as an exact
  ratio (`None` for the NaN of an empty subset), the two percentages, the
  outcome and thesis tables, the excerpts and their 300-character rendering.
- `recommendation.dfy` (`Recommendation`): `gerar_recomendacao`, its two
  thresholds restated exactly in integers, and rule order.
- `prompt.dfy` (`Prompt`): the values that `gerar_recomendacao_ia` puts in its
  prompt, including the two ways that code raises.
- `report.dfy` (`Report`): panel values, the three summary lines, the content
  handed to the PDF writer, download file names and the comparison mode.
- `scenarios.dfy` (`Scenarios`): worked cases.

## Model

| member | source | states |
|---|---|---|
| `Frequency.DropNa` | painel_completo_comparativo.py:96 | `dropna()` keeps exactly the present values and never lengthens the column |
| `Frequency.DropNaAppend` | painel_juridico_completo.py:97 | dropping missing values keeps row order: it distributes over concatenation |
| `Frequency.CountEqualIsOccurrences` | painel_completo_comparativo.py:16 | counting `col == v` over all rows (NaN never matches) equals counting `v` among the present values, so the rule and the thesis table agree |
| `Frequency.CountsOfTwoLabels` | painel_completo_comparativo.py:75-76 | two different labels match disjoint rows, so their counts add up to at most the row count |
| `Frequency.SortByCount` | painel_completo_comparativo.py:87 | the sort inside `value_counts` is a permutation of its input (same multiset of rows, hence the same sum), with non-increasing counts and no repeated item when the input has none |
| `Frequency.ValueCounts` | painel_completo_comparativo.py:87-88 | `value_counts()`: non-increasing counts, no item twice, a row is in the table iff its item is present and its count is the item's number of occurrences, counts sum to the number of present values |
| `Frequency.LabelHasRow` | painel_juridico_completo.py:86 | every present thesis has its row in the frequency table, with the number of rows using it |
| `Partition.LexLessTotal` | painel_completo_comparativo.py:65 | Python's `<` on `str` orders any two different ids one way or the other (the other order facts are proved beside it) |
| `Partition.Judges` | painel_completo_comparativo.py:64-65 | `sorted(df['Juiz'].unique())` is strictly ascending and holds exactly the ids present in the table |
| `Partition.AscendingUnique` | painel_unificado_ia.py:83 | two strictly ascending lists with the same elements are equal, so the selection list is the only sorted repeat-free list of the ids |
| `Partition.JudgesUnique` | painel_juridico_completo.py:64-65 | any sorted list of exactly the table's ids, without repeats, is the selection list |
| `Partition.Subset` | painel_completo_comparativo.py:70 | `df[df['Juiz'] == j]` holds exactly the table's rows of judge `j` |
| `Partition.SubsetAppend` | painel_juridico_completo.py:67 | the filter keeps row order: it distributes over concatenation of tables |
| `Partition.SubsetNonEmpty` | painel_unificado_ia.py:87-88 | the subset of `j` is non-empty iff `j` is in the selection list |
| `Partition.SubsetsDisjoint` | painel_completo_comparativo.py:120-121 | the rows of two different judges are disjoint |
| `Partition.SecondJudgeOptions` | painel_completo_comparativo.py:117 | the second-judge list holds exactly the first list's ids other than `juiz1` |
| `Partition.SecondJudgeOptionsAscending` | painel_completo_comparativo.py:117 | removing `juiz1` keeps the list sorted and removes exactly one entry when `juiz1` was in it |
| `Partition.ComparisonSubsets` | painel_completo_comparativo.py:116-121 | a second judge drawn from that list differs from the first; both subsets are non-empty and disjoint |
| `Metrics.Mean` | painel_completo_comparativo.py:75 | `(col == v).mean()` is NaN exactly for an empty subset, and otherwise the ratio in [0, 1] with `mean * n == k` |
| `Metrics.Percentage` | painel_juridico_completo.py:72-73 | the percentage is NaN exactly for an empty subset, and otherwise in [0, 100] with `p * n == 100 * k` |
| `Metrics.PercentagesAddUp` | painel_unificado_ia.py:93-94 | percentages of disjoint groups of rows add up to at most 100 |
| `Metrics.OutcomeShares` | painel_completo_comparativo.py:74-76 | Procedente and Improcedente counts together never exceed the total; both percentages are NaN iff the subset is empty; otherwise they sum to at most 100 |
| `Metrics.OutcomeCounts` | painel_completo_comparativo.py:82-83 | the outcome table is non-increasing with no outcome twice; each count is the rows with that outcome; every present outcome has its row; the counts sum to the rows carrying an outcome, which is the total when none is missing |
| `Metrics.ThesisCounts` | painel_juridico_completo.py:86-87 | `tese_counts` is non-increasing with no thesis twice; each row's count is the number of rows using that thesis; every used thesis has its row; counts sum to the rows carrying a thesis, which is the total when none is missing |
| `Metrics.ColumnCounts` | painel_unificado_ia.py:105 | the frequency table of any column, read back as counts of table rows |
| `Metrics.AllPresent` | painel_unificado_ia.py:105 | a column with no missing cell loses nothing to `dropna()` |
| `Metrics.Excerpts` | painel_completo_comparativo.py:96 | `dropna().tolist()[:n]` is a prefix of the present justifications of length min(n, their number) |
| `Metrics.ExcerptsOfPrefix` | painel_juridico_completo.py:97 | row order decides the excerpts: rows after the first `n` justifications never show, and rows without one are skipped |
| `Metrics.ExcerptsPrefix` | painel_unificado_ia.py:22 | fewer excerpts are a prefix of more |
| `Metrics.Render` | painel_completo_comparativo.py:52 | `f"{texto[:300]}..."` has length min(|texto|, 300) + 3 (at most 303), starts with a prefix of the text, always ends in `...`, and is the whole text plus `...` for texts up to 300 characters |
| `Metrics.ShownExcerpts` | painel_juridico_completo.py:97-99 | the panel shows min(3, number of justifications) excerpts, the i-th being the i-th present justification rendered |
| `Recommendation.ExceedsIff` | painel_completo_comparativo.py:16 | a share `k/n` exceeds `a/b` iff `b*k > a*n`; a NaN share never exceeds |
| `Recommendation.Recommend` | painel_completo_comparativo.py:15-21 | the result is one of the three fixed texts; the first iff `10 * #"Inexistência de falha" > 3 * total`; the second iff not that and `10 * #"Culpa do consumidor" > 2 * total`; the default otherwise, including for an empty subset |
| `Recommendation.FirstRuleWins` | painel_juridico_completo.py:15-18 | when both thresholds are exceeded the first rule's text is returned, never the second's |
| `Recommendation.DefaultWhenNeitherThesis` | painel_juridico_completo.py:14-20 | an empty subset, or one using neither thesis, falls through to the default text |
| `Recommendation.RecommendFromThesisCounts` | painel_completo_comparativo.py:87-88 | the rule compares the very count shown in the thesis table |
| `Recommendation.AbsentThesisNeverFires` | painel_completo_comparativo.py:16-17 | a thesis absent from the thesis table never triggers its rule |
| `Prompt.PromptInputs` | painel_unificado_ia.py:17-22 | fails with the `iloc[0]` error iff the subset is empty, and with the `idxmax` error iff it is non-empty but has no thesis; otherwise the judge is the first row's, and the most used thesis is present and at least as frequent as every other thesis |
| `Prompt.TopThesis` | painel_unificado_ia.py:20 | `value_counts().idxmax()` of a non-empty thesis table is a thesis some row uses, used at least as often as every other thesis |
| `Prompt.PromptNamesSelectedJudge` | painel_unificado_ia.py:18 | the judge named in the prompt is the selected judge |
| `Prompt.SelectedJudgeHasFirstRow` | painel_unificado_ia.py:87-88 | a judge picked from the selection list never triggers the `iloc[0]` error |
| `Prompt.PromptMatchesPanel` | painel_unificado_ia.py:19-34 | the prompt's total and percentage equal the displayed ones; its excerpts are a prefix of the displayed three, of length min(2, number of justifications); each slot holds the i-th justification or `n/a` |
| `Report.JudgePanel` | painel_juridico_completo.py:67-97 | the panel shows the selected judge's own row count, percentages, thesis table and first three justifications; it has rows iff its judge is in the list; with rows both percentages exist and sum to at most 100; without rows they are NaN and the tables are empty; the thesis counts sum to at most the total; at most 3 excerpts |
| `Report.ResumoOfJudge` | painel_juridico_completo.py:107-111 | the summary is exactly three lines, total then Procedente % then Improcedente %, built from the judge's rows |
| `Report.RuleReport` | painel_completo_comparativo.py:96-110 | the exported report carries the given title, the summary lines of the judge's panel, the rule's recommendation, the thesis table and at most 3 rendered excerpts of at most 303 characters, the i-th from the i-th justification |
| `Report.ReportMatchesPanel` | painel_juridico_completo.py:97-112 | the single-judge export is titled `Perfil do Juiz: <id>`, and its summary, thesis table and rendered excerpts are exactly those the panel displays |
| `Report.ModelReport` | painel_unificado_ia.py:118-130 | the language-model dashboard's report is the rule report titled `Juiz: <id>` with the model's answer as recommendation and nothing else changed, so it inherits that report's thesis table and excerpts |
| `Report.ReplaceSpaces` | painel_juridico_completo.py:114 | `replace(' ', '_')` keeps the length and turns every space, and only spaces, into `_` |
| `Report.ReplaceSpacesIdempotent` | painel_juridico_completo.py:114 | replacing spaces twice is replacing them once |
| `Report.PerfilFileName` | painel_juridico_completo.py:114 | the download name has length `|juiz| + 11`, starts with `perfil_`, ends with `.pdf`, has no space, is `perfil_` + the id with every space turned into `_` + `.pdf`, and is `perfil_<juiz>.pdf` when the id has no space |
| `Report.PerfilFileNameCollides` | painel_juridico_completo.py:114 | ids `A B` and `A_B` get the same download name |
| `Report.RelatorioFileName` | painel_completo_comparativo.py:112 | `relatorio_<juiz>.pdf` has length `|juiz| + 14` and keeps the id, spaces included |
| `Report.Compare` | painel_completo_comparativo.py:115-149 | each side shows its own selected judge's row count, percentages, thesis table and recommendation; two selected judges differ and both have rows; the two sides never cover more rows than the table; the second selection is empty iff the table has at most one judge, and a side with no selected judge has no rows, NaN percentages, an empty thesis table and the default recommendation |
| `Report.DisjointSubsetsFit` | painel_completo_comparativo.py:120-121 | the rows of two different judges together are at most the whole table |
| `Scenarios.FourDecisions` | painel_completo_comparativo.py:74-76 | outcomes Procedente, Procedente, Improcedente, Procedente give total 4, 75% and 25% |
| `Scenarios.FortyPercentAbsenceOfFault` | painel_completo_comparativo.py:16-17 | 40% "Inexistência de falha" gives the absence-of-fault text |
| `Scenarios.AbsentJudge` | painel_juridico_completo.py:67-73 | an id absent from the table has no rows, NaN percentages and the default recommendation, and the prompt cannot be built |

## Left out

- Streamlit widgets, layout, `st.metric`/`st.markdown` rendering and the Plotly charts: presentation only. The judge chosen in a select box is an input; `Report.SelectedFrom` says what it can be. That is an entry of the list, or `None` when the list is empty; only the comparison mode (`Report.Compare`) models the `None` case.
- The FPDF page layout, the temporary file and its removal: file I/O in a foreign library. `Report.PdfContent` keeps only the content, in page order.
- `pd.read_csv` / `pd.read_excel`: parsing happens inside pandas. The model starts from a parsed `seq<Decision>`. The single-judge dashboard calls `read_excel` on an upload labelled `.csv`; the model does not see this.
- The `astype(str)` coercion of judge ids (a missing id becomes the text `nan`): `Decision.juiz` is already that text.
- The OpenAI client and `chat.completions.create`: a network call with nondeterministic output. The answer enters as a parameter (`Report.ModelReport`). The prompt's wording is not rebuilt as a string, only the values it contains (`Prompt.PromptInputs`). The code has no timeout and no fallback to the rule. When building the prompt raises, or the call fails, the page stops with an exception.
- Text formatting of numbers: summary lines carry the value (`Report.Metric`), not its decimal text. The excerpt numbers `1.`, `2.`, `3.` and the markdown emphasis are not modelled.
- Metrics.Percentage: the exact ratio `100 * k / n`, not `round(mean * 100, 1)` computed in binary floating point. The one-decimal rounding is not modelled.
- Recommendation.Recommend: compares the exact ratio with 3/10 and 2/10, where the code compares a double with the doubles 0.3 and 0.2. The two agree for every table of fewer than 10^15 rows.
- Frequency.ValueCounts: pandas does not promise the order of tied counts. The model keeps tied items in first-seen order, but no contract states that order.
- Justification cells that are present but not text (a number, for which `texto[:300]` raises) are not modelled: the column holds text.
- Report.JudgePanel, Report.RuleReport, Report.ModelReport, Report.PerfilFileName: take the selected id as text, so the `None` selection of the single-judge views on an upload with headers but no rows is not modelled. There the title reads `Juiz: None` or `Perfil do Juiz: None`, the download name reads `relatorio_None.pdf`, and `None.replace` raises `AttributeError` in the single-judge dashboard's download name.
- The stray `import openai` and the `st.write` of its version at the end of the language-model dashboard.

Behaviours of the code worth noting:

- An empty subset gives NaN percentages, not 0.
- `...` is appended to every excerpt, truncated or not.
- The outcome counts add up to the total only when no outcome is missing.
- A failing language-model call is not caught.

=== FILE: decisions.dfy ===
/**
 * The decision table as the three dashboards hold it once it is loaded:
 * one record per spreadsheet row, the judge column already coerced to text
 * (`df['Juiz'].astype(str)`).
 */
module Decisions {

  datatype Option<+T> = None | Some(value: T)

  /**
   * One row of the table, with the columns `Juiz`, `Resultado`,
   * `Tese da Defesa` and `Fundamentação da Decisão`. After `astype(str)`
   * the judge is always a text; the other three cells may be missing
   * (NaN in pandas), which is `None` here.
   */
  datatype Decision = Decision(
    juiz: string,
    resultado: Option<string>,
    tese: Option<string>,
    fundamentacao: Option<string>)

  type Table = seq<Decision>

  /** The columns whose cells may be missing. */
  datatype Field = Resultado | TeseDaDefesa | Fundamentacao

  function Cell(d: Decision, f: Field): Option<string>
  {
    match f
    case Resultado => d.resultado
    case TeseDaDefesa => d.tese
    case Fundamentacao => d.fundamentacao
  }

  /** `df[f]`: one column of the table, in row order. */
  function Column(t: Table, f: Field): seq<Option<string>>
  {
    seq(|t|, i requires 0 <= i < |t| => Cell(t[i], f))
  }
}

=== FILE: frequency.dfy ===
/**
 * The three pandas column operations the dashboards rely on, over a column
 * of optional labels: `dropna()`, `(col == v).sum()` and `value_counts()`.
 */
module Frequency {
  import opened Decisions

  /** `col.dropna().tolist()`: the present values, in row order. */
  function DropNa(col: seq<Option<string>>): (vs: seq<string>)
    ensures |vs| <= |col|
    ensures forall v :: v in vs <==> Some(v) in col
  {
    if col == [] then []
    else (if col[0].Some? then [col[0].value] else []) + DropNa(col[1..])
  }

  /** Dropping missing values commutes with concatenation: row order is kept. */
  lemma {:induction false} DropNaAppend(a: seq<Option<string>>, b: seq<Option<string>>)
    ensures DropNa(a + b) == DropNa(a) + DropNa(b)
  {
    if a == [] {
      assert a + b == b;
    } else {
      assert (a + b)[1..] == a[1..] + b;
      DropNaAppend(a[1..], b);
    }
  }

  /** Number of occurrences of `x` in `s`. */
  function Occurrences(s: seq<string>, x: string): (n: nat)
    ensures n <= |s|
    ensures n > 0 <==> x in s
  {
    if s == [] then 0 else (if s[0] == x then 1 else 0) + Occurrences(s[1..], x)
  }

  /** `(col == v).sum()`: the rows holding exactly `v`; a missing cell never equals `v`. */
  function CountEqual(col: seq<Option<string>>, v: string): (n: nat)
    ensures n <= |col|
  {
    if col == [] then 0 else (if col[0] == Some(v) then 1 else 0) + CountEqual(col[1..], v)
  }

  /** Counting matches on the raw column is counting `v` among the present values. */
  lemma {:induction false} CountEqualIsOccurrences(col: seq<Option<string>>, v: string)
    ensures CountEqual(col, v) == Occurrences(DropNa(col), v)
  {
    if col != [] {
      CountEqualIsOccurrences(col[1..], v);
      var head := if col[0].Some? then [col[0].value] else [];
      assert DropNa(col) == head + DropNa(col[1..]);
      OccurrencesAppend(head, DropNa(col[1..]), v);
    }
  }

  lemma {:induction false} OccurrencesAppend(a: seq<string>, b: seq<string>, x: string)
    ensures Occurrences(a + b, x) == Occurrences(a, x) + Occurrences(b, x)
  {
    if a == [] {
      assert a + b == b;
    } else {
      assert (a + b)[1..] == a[1..] + b;
      OccurrencesAppend(a[1..], b, x);
    }
  }

  /** Two different labels never match the same row, so their counts add up to at most the row count. */
  lemma {:induction false} CountsOfTwoLabels(col: seq<Option<string>>, v: string, w: string)
    requires v != w
    ensures CountEqual(col, v) + CountEqual(col, w) <= |col|
  {
    if col != [] {
      CountsOfTwoLabels(col[1..], v, w);
    }
  }

  predicate Distinct(s: seq<string>)
  {
    forall i, j :: 0 <= i < j < |s| ==> s[i] != s[j]
  }

  /** The distinct values of `s`, in the order they are first seen. */
  function FirstSeen(s: seq<string>): (d: seq<string>)
    ensures Distinct(d)
    ensures forall x :: x in d <==> x in s
  {
    if s == [] then []
    else
      var last := s[|s| - 1];
      var d := FirstSeen(s[..|s| - 1]);
      assert s == s[..|s| - 1] + [last];
      if last in d then d else d + [last]
  }

  /** One row of a frequency table: an item and how often it occurs. */
  datatype Row = Row(item: string, frequencia: nat)

  /** The count of each key in `s`, in key order. */
  function Tally(keys: seq<string>, s: seq<string>): (rows: seq<Row>)
    ensures |rows| == |keys|
  {
    if keys == [] then [] else [Row(keys[0], Occurrences(s, keys[0]))] + Tally(keys[1..], s)
  }

  function SumFreq(rows: seq<Row>): nat
  {
    if rows == [] then 0 else rows[0].frequencia + SumFreq(rows[1..])
  }

  predicate NonIncreasing(rows: seq<Row>)
  {
    forall i, j :: 0 <= i < j < |rows| ==> rows[i].frequencia >= rows[j].frequencia
  }

  predicate DistinctLabels(rows: seq<Row>)
  {
    forall i, j :: 0 <= i < j < |rows| ==> rows[i].item != rows[j].item
  }

  /** A tally row is exactly a key paired with its count. */
  lemma {:induction false} TallyRows(keys: seq<string>, s: seq<string>)
    ensures forall r :: r in Tally(keys, s) <==> r.item in keys && r.frequencia == Occurrences(s, r.item)
    ensures Distinct(keys) ==> DistinctLabels(Tally(keys, s))
  {
    if keys != [] {
      TallyRows(keys[1..], s);
      var rows := Tally(keys, s);
      assert rows == [Row(keys[0], Occurrences(s, keys[0]))] + Tally(keys[1..], s);
      assert forall k :: k in keys <==> k == keys[0] || k in keys[1..];
      if Distinct(keys) {
        assert Distinct(keys[1..]) by {
          forall i, j | 0 <= i < j < |keys| - 1 ensures keys[1..][i] != keys[1..][j] {
            assert keys[1..][i] == keys[i + 1] && keys[1..][j] == keys[j + 1];
          }
        }
        forall i, j | 0 <= i < j < |rows| ensures rows[i].item != rows[j].item {
          if i == 0 {
            assert rows[j] in Tally(keys[1..], s);
            assert rows[j].item in keys[1..];
            var k :| 0 <= k < |keys[1..]| && keys[1..][k] == rows[j].item;
            assert keys[k + 1] == rows[j].item;
          } else {
            assert rows[i] == Tally(keys[1..], s)[i - 1];
            assert rows[j] == Tally(keys[1..], s)[j - 1];
          }
        }
      }
    }
  }

  /** Number of positions of `keys` holding `x`. */
  function Hits(keys: seq<string>, x: string): nat
  {
    if keys == [] then 0 else (if keys[0] == x then 1 else 0) + Hits(keys[1..], x)
  }

  lemma {:induction false} HitsOfDistinct(keys: seq<string>, x: string)
    requires Distinct(keys)
    ensures Hits(keys, x) == if x in keys then 1 else 0
  {
    if keys != [] {
      assert Distinct(keys[1..]) by {
        forall i, j | 0 <= i < j < |keys| - 1 ensures keys[1..][i] != keys[1..][j] {
          assert keys[1..][i] == keys[i + 1] && keys[1..][j] == keys[j + 1];
        }
      }
      HitsOfDistinct(keys[1..], x);
      assert forall k :: k in keys <==> k == keys[0] || k in keys[1..];
      if keys[0] == x {
        assert x !in keys[1..];
      }
    }
  }

  /** Counting one more value adds one to the row of each key equal to it. */
  lemma {:induction false} TallyStep(keys: seq<string>, x: string, s: seq<string>)
    ensures SumFreq(Tally(keys, [x] + s)) == Hits(keys, x) + SumFreq(Tally(keys, s))
  {
    if keys != [] {
      assert ([x] + s)[1..] == s;
      TallyStep(keys[1..], x, s);
    }
  }

  /** Tallying every value of `s` under distinct keys counts each value exactly once. */
  lemma {:induction false} TallyCoversAll(keys: seq<string>, s: seq<string>)
    requires Distinct(keys)
    requires forall x :: x in s ==> x in keys
    ensures SumFreq(Tally(keys, s)) == |s|
  {
    if s == [] {
      TallyOfEmpty(keys);
    } else {
      assert s == [s[0]] + s[1..];
      TallyCoversAll(keys, s[1..]);
      TallyStep(keys, s[0], s[1..]);
      HitsOfDistinct(keys, s[0]);
    }
  }

  lemma {:induction false} TallyOfEmpty(keys: seq<string>)
    ensures SumFreq(Tally(keys, [])) == 0
  {
    if keys != [] {
      TallyOfEmpty(keys[1..]);
    }
  }

  /**
   * Inserts a row into a table ordered by descending frequency, ahead of
   * the rows with the same frequency.
   */
  function InsertByCount(x: Row, rows: seq<Row>): (r: seq<Row>)
    ensures |r| == |rows| + 1
    ensures multiset(r) == multiset(rows) + multiset{x}
    ensures forall y :: y in r <==> y == x || y in rows
    ensures SumFreq(r) == x.frequencia + SumFreq(rows)
  {
    if rows == [] || rows[0].frequencia <= x.frequencia then [x] + rows
    else
      assert rows == [rows[0]] + rows[1..];
      [rows[0]] + InsertByCount(x, rows[1..])
  }

  lemma {:induction false} InsertByCountKeepsOrder(x: Row, rows: seq<Row>)
    requires NonIncreasing(rows)
    ensures NonIncreasing(InsertByCount(x, rows))
  {
    if rows != [] && rows[0].frequencia > x.frequencia {
      InsertByCountKeepsOrder(x, rows[1..]);
      var r := InsertByCount(x, rows);
      var tail := InsertByCount(x, rows[1..]);
      assert r == [rows[0]] + tail;
      forall j | 0 < j < |r| ensures rows[0].frequencia >= r[j].frequencia {
        assert r[j] == tail[j - 1];
        assert r[j] in tail;
      }
    }
  }

  lemma {:induction false} InsertByCountKeepsDistinct(x: Row, rows: seq<Row>)
    requires DistinctLabels(rows)
    requires forall y :: y in rows ==> y.item != x.item
    ensures DistinctLabels(InsertByCount(x, rows))
  {
    if rows != [] && rows[0].frequencia > x.frequencia {
      InsertByCountKeepsDistinct(x, rows[1..]);
      var r := InsertByCount(x, rows);
      var tail := InsertByCount(x, rows[1..]);
      assert r == [rows[0]] + tail;
      forall j | 0 < j < |r| ensures rows[0].item != r[j].item {
        assert r[j] == tail[j - 1];
        assert r[j] in tail;
        if r[j] != x {
          var k :| 0 <= k < |rows[1..]| && rows[1..][k] == r[j];
          assert rows[k + 1] == r[j];
        }
      }
    }
  }

  /**
   * Orders rows by descending frequency. Each row is inserted ahead of the
   * later rows of equal frequency, so ties keep their original order.
   */
  function SortByCount(rows: seq<Row>): (r: seq<Row>)
    ensures |r| == |rows|
    ensures multiset(r) == multiset(rows)
    ensures forall y :: y in r <==> y in rows
    ensures SumFreq(r) == SumFreq(rows)
    ensures NonIncreasing(r)
    ensures DistinctLabels(rows) ==> DistinctLabels(r)
  {
    if rows == [] then []
    else
      assert rows == [rows[0]] + rows[1..];
      var sorted := SortByCount(rows[1..]);
      InsertByCountKeepsOrder(rows[0], sorted);
      if DistinctLabels(rows) then
        assert DistinctLabels(rows[1..]);
        assert forall y :: y in rows[1..] ==> y.item != rows[0].item;
        InsertByCountKeepsDistinct(rows[0], sorted);
        InsertByCount(rows[0], sorted)
      else
        InsertByCount(rows[0], sorted)
  }

  /**
   * `col.value_counts()`: each present item once, with its number of
   * occurrences, most frequent first. Missing cells are not counted.
   */
  function ValueCounts(col: seq<Option<string>>): (rows: seq<Row>)
    ensures NonIncreasing(rows)
    ensures DistinctLabels(rows)
    ensures SumFreq(rows) == |DropNa(col)|
    ensures forall r :: r in rows <==> r.item in DropNa(col) && r.frequencia == Occurrences(DropNa(col), r.item)
  {
    var present := DropNa(col);
    var keys := FirstSeen(present);
    TallyRows(keys, present);
    TallyCoversAll(keys, present);
    SortByCount(Tally(keys, present))
  }

  /** Every present item has a row in the frequency table, carrying its count. */
  lemma LabelHasRow(col: seq<Option<string>>, v: string)
    requires Some(v) in col
    ensures Row(v, CountEqual(col, v)) in ValueCounts(col)
  {
    CountEqualIsOccurrences(col, v);
  }
}

=== FILE: metrics.dfy ===
/**
 * The per-judge metrics shown on every panel: total, share of "Procedente"
 * and "Improcedente" outcomes, the outcome and thesis frequency tables, and
 * the justification excerpts.
 */
module Metrics {
  import opened Decisions
  import opened Frequency

  const PROCEDENTE := "Procedente"
  const IMPROCEDENTE := "Improcedente"

  /** How many justifications a panel shows, and how many characters of each. */
  const MAX_EXCERPTS: nat := 3
  const EXCERPT_CHARS: nat := 300
  const ELLIPSIS := "..."

  function Min(a: nat, b: nat): nat
  {
    if a <= b then a else b
  }

  /**
   * `(col == v).mean()` for `k` matching rows out of `n`: the exact ratio,
   * or None for the NaN that pandas gives when there are no rows.
   */
  function Mean(k: nat, n: nat): (m: Option<real>)
    requires k <= n
    ensures m.None? <==> n == 0
    ensures m.Some? ==> 0.0 <= m.value <= 1.0 && m.value * n as real == k as real
  {
    if n == 0 then None else Some(k as real / n as real)
  }

  /** `mean * 100` before rounding. */
  function Percentage(k: nat, n: nat): (p: Option<real>)
    requires k <= n
    ensures p.None? <==> n == 0
    ensures p.Some? ==> 0.0 <= p.value <= 100.0 && p.value * n as real == 100.0 * k as real
  {
    match Mean(k, n)
    case None => None
    case Some(m) => Some(100.0 * m)
  }

  /** Rows of the subset whose outcome is exactly `outcome`. */
  function OutcomeCount(sub: Table, outcome: string): nat
  {
    CountEqual(Column(sub, Resultado), outcome)
  }

  /** `proced`: the percentage of "Procedente" outcomes. */
  function Proced(sub: Table): Option<real>
  {
    Percentage(OutcomeCount(sub, PROCEDENTE), |sub|)
  }

  /** `improc`: the percentage of "Improcedente" outcomes. */
  function Improc(sub: Table): Option<real>
  {
    Percentage(OutcomeCount(sub, IMPROCEDENTE), |sub|)
  }

  /**
   * The two outcome counts never exceed the total, so for a non-empty
   * subset the two percentages add up to at most 100; for an empty subset
   * both are NaN.
   */
  lemma OutcomeShares(sub: Table)
    ensures OutcomeCount(sub, PROCEDENTE) + OutcomeCount(sub, IMPROCEDENTE) <= |sub|
    ensures |sub| == 0 <==> Proced(sub).None? && Improc(sub).None?
    ensures |sub| > 0 ==> Proced(sub).value + Improc(sub).value <= 100.0
  {
    CountsOfTwoLabels(Column(sub, Resultado), PROCEDENTE, IMPROCEDENTE);
    if |sub| > 0 {
      PercentagesAddUp(OutcomeCount(sub, PROCEDENTE), OutcomeCount(sub, IMPROCEDENTE), |sub|);
    }
  }

  /** Percentages of disjoint groups of rows add up to at most 100. */
  lemma PercentagesAddUp(k1: nat, k2: nat, n: nat)
    requires k1 + k2 <= n && n > 0
    ensures Percentage(k1, n).value + Percentage(k2, n).value <= 100.0
  {
    var m := n as real;
    var x, y := k1 as real / m, k2 as real / m;
    calc {
      (x + y) * m;
      x * m + y * m;
      k1 as real + k2 as real;
    <=
      m;
    }
  }

  /**
   * `df_juiz['Resultado'].value_counts()` (the outcome chart): each present
   * outcome once, most frequent first, with the number of rows holding it;
   * the counts add up to the rows with an outcome, which is the total when
   * none is missing.
   */
  function OutcomeCounts(sub: Table): (rows: seq<Row>)
    ensures NonIncreasing(rows) && DistinctLabels(rows)
    ensures forall r :: r in rows ==> r.frequencia == OutcomeCount(sub, r.item) > 0
    ensures forall d :: d in sub && d.resultado.Some? ==> Row(d.resultado.value, OutcomeCount(sub, d.resultado.value)) in rows
    ensures SumFreq(rows) == |DropNa(Column(sub, Resultado))| <= |sub|
    ensures (forall d :: d in sub ==> d.resultado.Some?) ==> SumFreq(rows) == |sub|
  {
    ColumnCounts(sub, Resultado);
    ValueCounts(Column(sub, Resultado))
  }

  /** Rows of the subset whose thesis is exactly `thesis`. */
  function ThesisCount(sub: Table, thesis: string): nat
  {
    CountEqual(Column(sub, TeseDaDefesa), thesis)
  }

  /**
   * `tese_counts`: each thesis used once, most frequent first, with the
   * number of rows using it; the counts add up to the rows that carry a
   * thesis, which is the total when none is missing.
   */
  function ThesisCounts(sub: Table): (rows: seq<Row>)
    ensures NonIncreasing(rows) && DistinctLabels(rows)
    ensures forall r :: r in rows ==> r.frequencia == ThesisCount(sub, r.item) > 0
    ensures forall d :: d in sub && d.tese.Some? ==> Row(d.tese.value, ThesisCount(sub, d.tese.value)) in rows
    ensures SumFreq(rows) == |DropNa(Column(sub, TeseDaDefesa))| <= |sub|
    ensures (forall d :: d in sub ==> d.tese.Some?) ==> SumFreq(rows) == |sub|
  {
    ColumnCounts(sub, TeseDaDefesa);
    ValueCounts(Column(sub, TeseDaDefesa))
  }

  /** The frequency table of a column, read back in terms of the rows of the table. */
  lemma ColumnCounts(t: Table, f: Field)
    ensures forall r :: r in ValueCounts(Column(t, f)) ==> r.frequencia == CountEqual(Column(t, f), r.item) > 0
    ensures forall d :: d in t && Cell(d, f).Some? ==>
      Row(Cell(d, f).value, CountEqual(Column(t, f), Cell(d, f).value)) in ValueCounts(Column(t, f))
    ensures (forall d :: d in t ==> Cell(d, f).Some?) ==> SumFreq(ValueCounts(Column(t, f))) == |t|
  {
    var col := Column(t, f);
    forall r | r in ValueCounts(col) ensures r.frequencia == CountEqual(col, r.item) {
      CountEqualIsOccurrences(col, r.item);
    }
    forall d | d in t && Cell(d, f).Some? ensures Row(Cell(d, f).value, CountEqual(col, Cell(d, f).value)) in ValueCounts(col) {
      var i :| 0 <= i < |t| && t[i] == d;
      assert col[i] == Some(Cell(d, f).value);
      LabelHasRow(col, Cell(d, f).value);
    }
    if forall d :: d in t ==> Cell(d, f).Some? {
      AllPresent(t, f);
    }
  }

  /** A column with no missing cell loses nothing to `dropna()`. */
  lemma {:induction false} AllPresent(t: Table, f: Field)
    requires forall d :: d in t ==> Cell(d, f).Some?
    ensures |DropNa(Column(t, f))| == |t|
  {
    if t != [] {
      AllPresent(t[1..], f);
      assert Column(t, f)[1..] == Column(t[1..], f);
    }
  }

  /** The justifications that are present, in row order. */
  function Justifications(sub: Table): seq<string>
  {
    DropNa(Column(sub, Fundamentacao))
  }

  /**
   * `dropna().tolist()[:n]`: the first `n` present justifications in row
   * order, or all of them when there are fewer.
   */
  function Excerpts(sub: Table, n: nat): (e: seq<string>)
    ensures |e| == Min(n, |Justifications(sub)|)
    ensures e <= Justifications(sub)
  {
    var js := Justifications(sub);
    if |js| <= n then js else js[..n]
  }

  /**
   * Row order decides the excerpts: rows after `n` present justifications
   * never show, and rows without a justification are skipped.
   */
  lemma ExcerptsOfPrefix(a: Table, b: Table, n: nat)
    ensures |Justifications(a)| >= n ==> Excerpts(a + b, n) == Excerpts(a, n)
    ensures |Justifications(a)| == 0 ==> Excerpts(a + b, n) == Excerpts(b, n)
  {
    assert Column(a + b, Fundamentacao) == Column(a, Fundamentacao) + Column(b, Fundamentacao);
    DropNaAppend(Column(a, Fundamentacao), Column(b, Fundamentacao));
    if |Justifications(a)| >= n {
      assert (Justifications(a) + Justifications(b))[..n] == Justifications(a)[..n];
    }
  }

  /** Fewer excerpts never disagree with more: the shorter list is a prefix. */
  lemma ExcerptsPrefix(sub: Table, m: nat, n: nat)
    requires m <= n
    ensures Excerpts(sub, m) <= Excerpts(sub, n)
  {
  }

  /** `f"{texto[:300]}..."`: the first 300 characters, then the marker, always appended. */
  function Render(text: string): (shown: string)
    ensures |shown| == Min(|text|, EXCERPT_CHARS) + |ELLIPSIS| <= EXCERPT_CHARS + |ELLIPSIS|
    ensures shown[..|shown| - |ELLIPSIS|] <= text
    ensures shown[|shown| - |ELLIPSIS|..] == ELLIPSIS
    ensures |text| <= EXCERPT_CHARS ==> shown == text + ELLIPSIS
  {
    (if |text| <= EXCERPT_CHARS then text else text[..EXCERPT_CHARS]) + ELLIPSIS
  }

  /** Each excerpt rendered, in the same order. */
  function RenderAll(excerpts: seq<string>): seq<string>
  {
    seq(|excerpts|, i requires 0 <= i < |excerpts| => Render(excerpts[i]))
  }

  /** The excerpts as a panel shows them, in the same order. */
  function ShownExcerpts(sub: Table): (shown: seq<string>)
    ensures |shown| == Min(MAX_EXCERPTS, |Justifications(sub)|)
    ensures forall i :: 0 <= i < |shown| ==> shown[i] == Render(Justifications(sub)[i])
  {
    RenderAll(Excerpts(sub, MAX_EXCERPTS))
  }
}

=== FILE: partition.dfy ===
/**
 * Judge partitioning: the sorted list of distinct judge ids offered for
 * selection, the rows of one judge, and the second-judge candidates of the
 * comparison mode.
 */
module Partition {
  import opened Decisions

  /** Python's `<` on `str`: lexicographic by code point, a proper prefix first. */
  predicate LexLess(a: string, b: string)
  {
    if |a| == 0 then |b| > 0
    else if |b| == 0 then false
    else if a[0] != b[0] then a[0] < b[0]
    else LexLess(a[1..], b[1..])
  }

  lemma {:induction false} LexLessIrreflexive(a: string)
    ensures !LexLess(a, a)
  {
    if |a| > 0 {
      LexLessIrreflexive(a[1..]);
    }
  }

  lemma {:induction false} LexLessTransitive(a: string, b: string, c: string)
    requires LexLess(a, b) && LexLess(b, c)
    ensures LexLess(a, c)
  {
    if |a| > 0 && a[0] == b[0] && b[0] == c[0] {
      LexLessTransitive(a[1..], b[1..], c[1..]);
    }
  }

  /** Any two different texts are ordered one way or the other. */
  lemma {:induction false} LexLessTotal(a: string, b: string)
    ensures a == b || LexLess(a, b) || LexLess(b, a)
  {
    if |a| > 0 && |b| > 0 && a[0] == b[0] {
      LexLessTotal(a[1..], b[1..]);
      if a[1..] == b[1..] {
        assert a == [a[0]] + a[1..] && b == [b[0]] + b[1..];
      }
    }
  }

  lemma LexLessAsymmetric(a: string, b: string)
    requires LexLess(a, b)
    ensures !LexLess(b, a)
  {
    if LexLess(b, a) {
      LexLessTransitive(a, b, a);
      LexLessIrreflexive(a);
    }
  }

  /** Sorted ascending with no repeats: what `sorted(set_of_ids)` yields. */
  predicate StrictlyAscending(s: seq<string>)
  {
    forall i, j :: 0 <= i < j < |s| ==> LexLess(s[i], s[j])
  }

  /** There is only one sorted, repeat-free list of a given set of ids. */
  lemma {:induction false} AscendingUnique(a: seq<string>, b: seq<string>)
    requires StrictlyAscending(a) && StrictlyAscending(b)
    requires forall x :: x in a <==> x in b
    ensures a == b
  {
    if a != [] {
      assert a[0] in b;
    }
    if b != [] {
      assert b[0] in a;
    }
    if a != [] && b != [] {
      if a[0] != b[0] {
        var i :| 0 <= i < |a| && a[i] == b[0];
        var j :| 0 <= j < |b| && b[j] == a[0];
        assert LexLess(a[0], a[i]) && LexLess(b[0], b[j]);
        LexLessAsymmetric(a[0], b[0]);
        assert false;
      }
      forall x ensures x in a[1..] <==> x in b[1..] {
        AscendingTail(a, x);
        AscendingTail(b, x);
      }
      AscendingUnique(a[1..], b[1..]);
      assert a == [a[0]] + a[1..] && b == [b[0]] + b[1..];
    }
  }

  /** The tail of a sorted list holds every element but the head. */
  lemma AscendingTail(s: seq<string>, x: string)
    requires StrictlyAscending(s) && s != []
    ensures x in s[1..] <==> x in s && x != s[0]
  {
    if x in s[1..] {
      var k :| 0 <= k < |s[1..]| && s[1..][k] == x;
      assert LexLess(s[0], s[k + 1]);
      LexLessIrreflexive(s[0]);
    }
    if x in s && x != s[0] {
      var k :| 0 <= k < |s| && s[k] == x;
      assert s[1..][k - 1] == x;
    }
  }

  /** Adds one id to a sorted, repeat-free list. */
  function InsertSorted(x: string, s: seq<string>): (r: seq<string>)
    requires StrictlyAscending(s)
    ensures StrictlyAscending(r)
    ensures forall y :: y in r <==> y == x || y in s
  {
    if s == [] then [x]
    else if x == s[0] then s
    else if LexLess(x, s[0]) then
      assert forall k :: 0 < k < |s| ==> LexLess(x, s[k]) by {
        forall k | 0 < k < |s| ensures LexLess(x, s[k]) {
          LexLessTransitive(x, s[0], s[k]);
        }
      }
      [x] + s
    else
      LexLessTotal(x, s[0]);
      var tail := InsertSorted(x, s[1..]);
      assert forall y :: y in s[1..] ==> LexLess(s[0], y);
      [s[0]] + tail
  }

  /** `sorted(df['Juiz'].unique())`: the judge ids of the table, sorted and without repeats. */
  function Judges(t: Table): (js: seq<string>)
    ensures StrictlyAscending(js)
    ensures forall j :: j in js <==> exists d :: d in t && d.juiz == j
  {
    if t == [] then []
    else
      var rest := Judges(t[1..]);
      assert forall d :: d in t <==> d == t[0] || d in t[1..];
      InsertSorted(t[0].juiz, rest)
  }

  /** Any sorted, repeat-free list of exactly the table's judge ids is the selection list. */
  lemma JudgesUnique(t: Table, s: seq<string>)
    requires StrictlyAscending(s)
    requires forall j :: j in s <==> exists d :: d in t && d.juiz == j
    ensures s == Judges(t)
  {
    AscendingUnique(s, Judges(t));
  }

  /** `df[df['Juiz'] == j]`: the rows of judge `j`, in table order. */
  function Subset(t: Table, j: string): (sub: Table)
    ensures |sub| <= |t|
    ensures forall d :: d in sub <==> d in t && d.juiz == j
  {
    if t == [] then []
    else
      assert forall d :: d in t <==> d == t[0] || d in t[1..];
      (if t[0].juiz == j then [t[0]] else []) + Subset(t[1..], j)
  }

  /** Filtering keeps row order: it distributes over concatenation of tables. */
  lemma {:induction false} SubsetAppend(a: Table, b: Table, j: string)
    ensures Subset(a + b, j) == Subset(a, j) + Subset(b, j)
  {
    if a == [] {
      assert a + b == b;
    } else {
      assert (a + b)[1..] == a[1..] + b;
      SubsetAppend(a[1..], b, j);
    }
  }

  /** A selected judge from the list always has rows; an id not in the table has none. */
  lemma SubsetNonEmpty(t: Table, j: string)
    ensures |Subset(t, j)| > 0 <==> j in Judges(t)
  {
    if j in Judges(t) {
      var d :| d in t && d.juiz == j;
      assert d in Subset(t, j);
    }
  }

  /** The subsets of two different judges share no row. */
  lemma SubsetsDisjoint(t: Table, j1: string, j2: string)
    requires j1 != j2
    ensures forall d :: d in Subset(t, j1) ==> d !in Subset(t, j2)
  {
  }

  /** `[j for j in juizes if j != juiz1]`: the list without `juiz1`, order kept. */
  function SecondJudgeOptions(juizes: seq<string>, juiz1: string): (r: seq<string>)
    ensures |r| <= |juizes|
    ensures forall j :: j in r <==> j in juizes && j != juiz1
  {
    if juizes == [] then []
    else
      assert forall j :: j in juizes <==> j == juizes[0] || j in juizes[1..];
      (if juizes[0] == juiz1 then [] else [juizes[0]]) + SecondJudgeOptions(juizes[1..], juiz1)
  }

  /** Removing an id keeps the candidate list sorted, and removes exactly one entry when it was there. */
  lemma {:induction false} SecondJudgeOptionsAscending(juizes: seq<string>, juiz1: string)
    requires StrictlyAscending(juizes)
    ensures StrictlyAscending(SecondJudgeOptions(juizes, juiz1))
    ensures |SecondJudgeOptions(juizes, juiz1)| == if juiz1 in juizes then |juizes| - 1 else |juizes|
  {
    if juizes != [] {
      var rest := SecondJudgeOptions(juizes[1..], juiz1);
      SecondJudgeOptionsAscending(juizes[1..], juiz1);
      AscendingTail(juizes, juiz1);
      assert forall y :: y in rest ==> LexLess(juizes[0], y);
    }
  }

  /**
   * The comparison mode: a second judge chosen from the candidate list is
   * never the first, and when both are drawn from the table the two panels
   * show non-empty, disjoint sets of rows.
   */
  lemma ComparisonSubsets(t: Table, juiz1: string, juiz2: string)
    requires juiz1 in Judges(t)
    requires juiz2 in SecondJudgeOptions(Judges(t), juiz1)
    ensures juiz1 != juiz2
    ensures |Subset(t, juiz1)| > 0 && |Subset(t, juiz2)| > 0
    ensures forall d :: d in Subset(t, juiz1) ==> d !in Subset(t, juiz2)
  {
    SubsetNonEmpty(t, juiz1);
    SubsetNonEmpty(t, juiz2);
  }
}

=== FILE: prompt.dfy ===
/**
 * The values `gerar_recomendacao_ia` places in its prompt. The request to
 * the language model and its answer are outside this model: only the
 * prompt's inputs are computed here.
 */
module Prompt {
  import opened Decisions
  import opened Frequency
  import opened Metrics
  import opened Partition

  /** How many justifications the prompt quotes, and what stands in for a missing one. */
  const PROMPT_EXCERPTS: nat := 2
  const NOT_AVAILABLE := "n/a"

  /** The two ways building the prompt raises instead of returning. */
  datatype PromptError =
    | NoRows    // `df_juiz['Juiz'].iloc[0]` on an empty subset
    | NoThesis  // `value_counts().idxmax()` when no row has a thesis

  datatype Result<T> = Ok(value: T) | Err(error: PromptError)

  /** The profile the prompt describes. */
  datatype PromptData = PromptData(
    juizNome: string,
    totalDec: nat,
    maisUsada: string,
    porcentProcedente: Option<real>,
    fundamentos: seq<string>)

  /**
   * The prompt's inputs for one judge's rows: the judge of the first row,
   * the row count, the most used thesis (the first row of the frequency
   * table), the "Procedente" percentage and the first two justifications.
   */
  function PromptInputs(sub: Table): (r: Result<PromptData>)
    ensures r == Err(NoRows) <==> |sub| == 0
    ensures r == Err(NoThesis) <==> |sub| > 0 && forall d :: d in sub ==> d.tese.None?
    ensures r.Ok? ==> r.value.juizNome == sub[0].juiz
    ensures r.Ok? ==> r.value.maisUsada in DropNa(Column(sub, TeseDaDefesa))
    ensures r.Ok? ==> forall d :: d in sub && d.tese.Some? ==>
      ThesisCount(sub, d.tese.value) <= ThesisCount(sub, r.value.maisUsada)
  {
    if |sub| == 0 then Err(NoRows)
    else if |ThesisCounts(sub)| == 0 then
      assert forall d :: d in sub ==> d.tese.None?;
      Err(NoThesis)
    else
      var top := ThesisCounts(sub)[0].item;
      TopThesis(sub);
      Ok(PromptData(sub[0].juiz, |sub|, top, Proced(sub), Excerpts(sub, PROMPT_EXCERPTS)))
  }

  /** `idxmax()` of a non-empty frequency table: a used thesis, used at least as often as any other. */
  lemma TopThesis(sub: Table)
    requires ThesisCounts(sub) != []
    ensures ThesisCounts(sub)[0].item in DropNa(Column(sub, TeseDaDefesa))
    ensures exists d :: d in sub && d.tese.Some?
    ensures forall d :: d in sub && d.tese.Some? ==>
      ThesisCount(sub, d.tese.value) <= ThesisCount(sub, ThesisCounts(sub)[0].item)
  {
    var counts := ThesisCounts(sub);
    assert counts[0] in counts;
    forall r | r in counts ensures r.frequencia <= counts[0].frequencia {
      var i :| 0 <= i < |counts| && counts[i] == r;
    }
    assert counts[0].frequencia == ThesisCount(sub, counts[0].item) > 0;
    CountEqualIsOccurrences(Column(sub, TeseDaDefesa), counts[0].item);
    var i :| 0 <= i < |sub| && Column(sub, TeseDaDefesa)[i] == Some(counts[0].item);
    assert sub[i] in sub && sub[i].tese.Some?;
  }

  /** The excerpt printed in prompt slot `i`: the justification, or "n/a" when there is none. */
  function Slot(fundamentos: seq<string>, i: nat): string
  {
    if |fundamentos| > i then fundamentos[i] else NOT_AVAILABLE
  }

  /** The judge named in the prompt is the judge that was selected. */
  lemma PromptNamesSelectedJudge(t: Table, juiz: string)
    requires PromptInputs(Subset(t, juiz)).Ok?
    ensures PromptInputs(Subset(t, juiz)).value.juizNome == juiz
  {
    assert Subset(t, juiz)[0] in Subset(t, juiz);
  }

  /** A judge taken from the selection list always has a first row. */
  lemma SelectedJudgeHasFirstRow(t: Table, juiz: string)
    requires juiz in Judges(t)
    ensures PromptInputs(Subset(t, juiz)) != Err(NoRows)
  {
    SubsetNonEmpty(t, juiz);
  }

  /**
   * The prompt agrees with the panel shown beside it: the same total, the
   * same "Procedente" percentage, and its excerpts are the first of the
   * displayed ones, filling the two slots in order or with "n/a".
   */
  lemma PromptMatchesPanel(sub: Table)
    requires PromptInputs(sub).Ok?
    ensures PromptInputs(sub).value.totalDec == |sub|
    ensures PromptInputs(sub).value.porcentProcedente == Proced(sub)
    ensures PromptInputs(sub).value.fundamentos <= Excerpts(sub, MAX_EXCERPTS)
    ensures |PromptInputs(sub).value.fundamentos| == Min(PROMPT_EXCERPTS, |Justifications(sub)|)
    ensures forall i :: 0 <= i < PROMPT_EXCERPTS ==>
      Slot(PromptInputs(sub).value.fundamentos, i) ==
        if i < |Justifications(sub)| then Justifications(sub)[i] else NOT_AVAILABLE
  {
    ExcerptsPrefix(sub, PROMPT_EXCERPTS, MAX_EXCERPTS);
  }
}

=== FILE: recommendation.dfy ===
/**
 * `gerar_recomendacao`: an ordered two-threshold rule over the share of two
 * defence theses among the judge's rows; the first rule that fires wins.
 */
module Recommendation {
  import opened Decisions
  import opened Frequency
  import opened Metrics

  const INEXISTENCIA_DE_FALHA := "Inexistência de falha"
  const CULPA_DO_CONSUMIDOR := "Culpa do consumidor"

  /** The three fixed recommendations. */
  const FOCAR_AUSENCIA_DE_FALHA := "Focar na ausência de falha comprovada e atendimento adequado."
  const EXPLORAR_CULPA_EXCLUSIVA := "Explorar a tese de culpa exclusiva do consumidor com robustez documental."
  const ABORDAGEM_DOCUMENTAL := "Adotar abordagem documental e avaliar possibilidade de acordo em casos de dano moral reiterado."

  /** The thresholds 0.3 and 0.2, as exact fractions. */
  const FALHA_LIMIT: real := 3.0 / 10.0
  const CULPA_LIMIT: real := 2.0 / 10.0

  /** `share > limit`, where a NaN share compares false. */
  predicate Exceeds(share: Option<real>, limit: real)
  {
    share.Some? && share.value > limit
  }

  /** `(df['Tese da Defesa'] == thesis).mean()`: over all rows, a missing thesis counting as a mismatch. */
  function ThesisShare(sub: Table, thesis: string): Option<real>
  {
    Mean(ThesisCount(sub, thesis), |sub|)
  }

  /** A share of `k` rows out of `n` exceeds `a / b` exactly when `b * k > a * n`. */
  lemma ExceedsIff(k: nat, n: nat, a: nat, b: nat)
    requires k <= n && b > 0
    ensures Exceeds(Mean(k, n), a as real / b as real) <==> b * k > a * n
  {
    if n > 0 {
      var x, y := k as real / n as real, a as real / b as real;
      assert x * n as real == k as real;
      assert y * b as real == a as real;
      assert x > y <==> x * (n * b) as real > y * (n * b) as real;
      assert x * (n * b) as real == (k * b) as real;
      assert y * (n * b) as real == (a * n) as real;
    }
  }

  /**
   * The recommendation for one judge's rows. More than 30% "Inexistência de
   * falha" gives the first text; otherwise more than 20% "Culpa do
   * consumidor" gives the second; otherwise the default. With no rows both
   * shares are NaN and the default is returned.
   */
  function Recommend(sub: Table): (rec: string)
    ensures rec == FOCAR_AUSENCIA_DE_FALHA || rec == EXPLORAR_CULPA_EXCLUSIVA || rec == ABORDAGEM_DOCUMENTAL
    ensures rec == FOCAR_AUSENCIA_DE_FALHA <==> 10 * ThesisCount(sub, INEXISTENCIA_DE_FALHA) > 3 * |sub|
    ensures rec == EXPLORAR_CULPA_EXCLUSIVA <==>
      10 * ThesisCount(sub, INEXISTENCIA_DE_FALHA) <= 3 * |sub| && 10 * ThesisCount(sub, CULPA_DO_CONSUMIDOR) > 2 * |sub|
    ensures rec == ABORDAGEM_DOCUMENTAL <==>
      10 * ThesisCount(sub, INEXISTENCIA_DE_FALHA) <= 3 * |sub| && 10 * ThesisCount(sub, CULPA_DO_CONSUMIDOR) <= 2 * |sub|
  {
    ExceedsIff(ThesisCount(sub, INEXISTENCIA_DE_FALHA), |sub|, 3, 10);
    ExceedsIff(ThesisCount(sub, CULPA_DO_CONSUMIDOR), |sub|, 2, 10);
    if Exceeds(ThesisShare(sub, INEXISTENCIA_DE_FALHA), FALHA_LIMIT) then FOCAR_AUSENCIA_DE_FALHA
    else if Exceeds(ThesisShare(sub, CULPA_DO_CONSUMIDOR), CULPA_LIMIT) then EXPLORAR_CULPA_EXCLUSIVA
    else ABORDAGEM_DOCUMENTAL
  }

  /** Rule order: once the first threshold is passed, the consumer-fault share is irrelevant. */
  lemma FirstRuleWins(sub: Table)
    requires Exceeds(ThesisShare(sub, INEXISTENCIA_DE_FALHA), FALHA_LIMIT)
    requires Exceeds(ThesisShare(sub, CULPA_DO_CONSUMIDOR), CULPA_LIMIT)
    ensures Recommend(sub) == FOCAR_AUSENCIA_DE_FALHA
    ensures Recommend(sub) != EXPLORAR_CULPA_EXCLUSIVA
  {
  }

  /** An empty subset, or one where neither thesis appears, falls through to the default. */
  lemma DefaultWhenNeitherThesis(sub: Table)
    requires ThesisCount(sub, INEXISTENCIA_DE_FALHA) == 0 && ThesisCount(sub, CULPA_DO_CONSUMIDOR) == 0
    ensures Recommend(sub) == ABORDAGEM_DOCUMENTAL
  {
  }

  /** The rule reads off the thesis frequency table: the row of a thesis carries the count the rule compares. */
  lemma RecommendFromThesisCounts(sub: Table, f: nat)
    requires Row(INEXISTENCIA_DE_FALHA, f) in ThesisCounts(sub)
    ensures Recommend(sub) == FOCAR_AUSENCIA_DE_FALHA <==> 10 * f > 3 * |sub|
  {
  }

  /** A thesis missing from the frequency table never triggers its rule. */
  lemma AbsentThesisNeverFires(sub: Table)
    requires forall r :: r in ThesisCounts(sub) ==> r.item != INEXISTENCIA_DE_FALHA
    ensures Recommend(sub) != FOCAR_AUSENCIA_DE_FALHA
  {
    var col := Column(sub, TeseDaDefesa);
    CountEqualIsOccurrences(col, INEXISTENCIA_DE_FALHA);
    var r := Row(INEXISTENCIA_DE_FALHA, Occurrences(DropNa(col), INEXISTENCIA_DE_FALHA));
    assert r !in ValueCounts(col);
  }
}

=== FILE: report.dfy ===
/**
 * What each dashboard shows for a judge and what it hands to the PDF
 * writer: the panel values, the three summary lines, the report content in
 * the order the PDF lays it out, and the download file name.
 */
module Report {
  import opened Decisions
  import opened Frequency
  import opened Metrics
  import opened Partition
  import opened Recommendation

  /** The value printed on one summary line. */
  datatype Metric = Count(n: nat) | Percent(p: Option<real>)

  datatype SummaryLine = SummaryLine(caption: string, value: Metric)

  const TOTAL_CAPTION := "Total de decisões"
  const PROCED_CAPTION := "Procedentes (%)"
  const IMPROC_CAPTION := "Improcedentes (%)"

  /** The values a single-judge panel displays. */
  datatype Panel = Panel(
    juiz: string,
    total: nat,
    proced: Option<real>,
    improc: Option<real>,
    teses: seq<Row>,
    fundamentos: seq<string>)

  /** The panel of one judge: metrics, thesis table and excerpts of that judge's rows. */
  function JudgePanel(t: Table, juiz: string): (p: Panel)
    ensures p.juiz == juiz
    ensures p.total == |Subset(t, juiz)| && p.proced == Proced(Subset(t, juiz)) && p.improc == Improc(Subset(t, juiz))
    ensures p.teses == ThesisCounts(Subset(t, juiz)) && p.fundamentos == Excerpts(Subset(t, juiz), MAX_EXCERPTS)
    ensures juiz in Judges(t) <==> p.total > 0
    ensures p.total > 0 ==> p.proced.Some? && p.improc.Some? && p.proced.value + p.improc.value <= 100.0
    ensures p.total == 0 ==> p.proced.None? && p.improc.None? && p.teses == [] && p.fundamentos == []
    ensures SumFreq(p.teses) <= p.total
    ensures |p.fundamentos| <= MAX_EXCERPTS
  {
    var sub := Subset(t, juiz);
    SubsetNonEmpty(t, juiz);
    OutcomeShares(sub);
    Panel(juiz, |sub|, Proced(sub), Improc(sub), ThesisCounts(sub), Excerpts(sub, MAX_EXCERPTS))
  }

  /** `resumo`: total, then the two percentages, from the displayed values. */
  function Resumo(p: Panel): (lines: seq<SummaryLine>)
  {
    [ SummaryLine(TOTAL_CAPTION, Count(p.total)),
      SummaryLine(PROCED_CAPTION, Percent(p.proced)),
      SummaryLine(IMPROC_CAPTION, Percent(p.improc)) ]
  }

  /**
   * The PDF receives exactly three lines, in the order total, "Procedente"
   * share, "Improcedente" share, each carrying what the panel shows for the
   * selected judge's rows.
   */
  lemma ResumoOfJudge(t: Table, juiz: string)
    ensures |Resumo(JudgePanel(t, juiz))| == 3
    ensures Resumo(JudgePanel(t, juiz))[0] == SummaryLine(TOTAL_CAPTION, Count(|Subset(t, juiz)|))
    ensures Resumo(JudgePanel(t, juiz))[1] == SummaryLine(PROCED_CAPTION, Percent(Proced(Subset(t, juiz))))
    ensures Resumo(JudgePanel(t, juiz))[2] == SummaryLine(IMPROC_CAPTION, Percent(Improc(Subset(t, juiz))))
  {
  }

  /** What the PDF writer lays out, top to bottom. */
  datatype PdfContent = PdfContent(
    titulo: string,
    resumo: seq<SummaryLine>,
    recomendacao: string,
    teses: seq<Row>,
    trechos: seq<string>)

  /** The report of a panel, with its title and recommendation text. */
  function PdfOf(titulo: string, p: Panel, recomendacao: string): PdfContent
  {
    PdfContent(titulo, Resumo(p), recomendacao, p.teses, RenderAll(p.fundamentos))
  }

  /** The title "Juiz: <id>" of the comparison and the language-model dashboards. */
  function JuizTitle(juiz: string): string
  {
    "Juiz: " + juiz
  }

  /** The title "Perfil do Juiz: <id>" of the single-judge dashboard. */
  function PerfilTitle(juiz: string): string
  {
    "Perfil do Juiz: " + juiz
  }

  /** The report of the rule-based dashboards: the panel plus the rule's recommendation. */
  function RuleReport(t: Table, titulo: string, juiz: string): (r: PdfContent)
    ensures r.titulo == titulo
    ensures r.resumo == Resumo(JudgePanel(t, juiz))
    ensures r.recomendacao == Recommend(Subset(t, juiz))
    ensures r.teses == ThesisCounts(Subset(t, juiz))
    ensures |r.trechos| == |Excerpts(Subset(t, juiz), MAX_EXCERPTS)| <= MAX_EXCERPTS
    ensures forall i :: 0 <= i < |r.trechos| ==>
      |r.trechos[i]| <= EXCERPT_CHARS + |ELLIPSIS| && r.trechos[i] == Render(Justifications(Subset(t, juiz))[i])
  {
    var sub := Subset(t, juiz);
    var p := JudgePanel(t, juiz);
    var shown := ShownExcerpts(sub);
    assert RenderAll(p.fundamentos) == shown;
    PdfOf(titulo, p, Recommend(sub))
  }

  /**
   * The single-judge dashboard's export never diverges from its screen: the
   * title names the judge, and the summary, thesis table and rendered
   * excerpts are those the panel displays.
   */
  lemma ReportMatchesPanel(t: Table, juiz: string)
    ensures RuleReport(t, PerfilTitle(juiz), juiz).titulo == "Perfil do Juiz: " + juiz
    ensures RuleReport(t, PerfilTitle(juiz), juiz).resumo == Resumo(JudgePanel(t, juiz))
    ensures RuleReport(t, PerfilTitle(juiz), juiz).teses == JudgePanel(t, juiz).teses
    ensures RuleReport(t, PerfilTitle(juiz), juiz).trechos == ShownExcerpts(Subset(t, juiz))
  {
  }

  /**
   * The report of the language-model dashboard: the same panel, with the
   * model's answer as the recommendation text. The two recommendation
   * strategies plug into the same report: swapping the rule for the model's
   * answer changes the recommendation and nothing else.
   */
  function ModelReport(t: Table, juiz: string, resposta: string): (r: PdfContent)
    ensures r == RuleReport(t, JuizTitle(juiz), juiz).(recomendacao := resposta)
  {
    PdfOf(JuizTitle(juiz), JudgePanel(t, juiz), resposta)
  }

  /** `s.replace(' ', '_')`. */
  function ReplaceSpaces(s: string): (r: string)
    ensures |r| == |s|
    ensures forall i :: 0 <= i < |s| ==> r[i] == if s[i] == ' ' then '_' else s[i]
  {
    if s == [] then [] else [if s[0] == ' ' then '_' else s[0]] + ReplaceSpaces(s[1..])
  }

  /** Replacing spaces a second time changes nothing. */
  lemma ReplaceSpacesIdempotent(s: string)
    ensures ReplaceSpaces(ReplaceSpaces(s)) == ReplaceSpaces(s)
  {
  }

  /** `f"perfil_{juiz.replace(' ', '_')}.pdf"`: the single-judge dashboard's download name. */
  function PerfilFileName(juiz: string): (name: string)
    ensures |name| == |juiz| + 11
    ensures name[..7] == "perfil_" && name[|name| - 4..] == ".pdf"
    ensures ' ' !in name
    ensures name == "perfil_" + ReplaceSpaces(juiz) + ".pdf"
    ensures (' ' !in juiz) ==> name == "perfil_" + juiz + ".pdf"
  {
    var middle := ReplaceSpaces(juiz);
    assert ' ' !in middle;
    assert ' ' !in juiz ==> middle == juiz;
    "perfil_" + middle + ".pdf"
  }

  /** `f"relatorio_{juiz}.pdf"`: the download name of the other two dashboards, spaces kept. */
  function RelatorioFileName(juiz: string): (name: string)
    ensures |name| == |juiz| + 14
    ensures name[..10] == "relatorio_" && name[10..|name| - 4] == juiz && name[|name| - 4..] == ".pdf"
  {
    "relatorio_" + juiz + ".pdf"
  }

  /** Two judges whose ids differ only in spaces and underscores get the same download name. */
  lemma PerfilFileNameCollides()
    ensures PerfilFileName("A B") == PerfilFileName("A_B")
  {
    assert ReplaceSpaces("A B") == "A_B";
    assert ReplaceSpaces("A_B") == "A_B";
  }

  /**
   * `st.selectbox(label, options)`: one of the options, or None when the
   * list is empty.
   */
  predicate SelectedFrom(sel: Option<string>, options: seq<string>)
  {
    if options == [] then sel.None? else sel.Some? && sel.value in options
  }

  /** `df[df['Juiz'] == sel]`: a None selection matches no row. */
  function RowsOf(t: Table, sel: Option<string>): Table
  {
    match sel
    case None => []
    case Some(j) => Subset(t, j)
  }

  /** The comparison mode's candidate list for the second judge. */
  function SecondOptions(t: Table, sel1: Option<string>): seq<string>
  {
    match sel1
    case None => Judges(t)
    case Some(j) => SecondJudgeOptions(Judges(t), j)
  }

  /** One side of the comparison mode: metrics, thesis table and recommendation. */
  datatype Side = Side(juiz: Option<string>, total: nat, proced: Option<real>, improc: Option<real>, teses: seq<Row>, recomendacao: string)

  function SideOf(t: Table, sel: Option<string>): Side
  {
    var sub := RowsOf(t, sel);
    Side(sel, |sub|, Proced(sub), Improc(sub), ThesisCounts(sub), Recommend(sub))
  }

  /** A side carries the metrics, thesis table and recommendation of the rows `sub`. */
  predicate ShowsRows(s: Side, sub: Table)
  {
    s.total == |sub| && s.proced == Proced(sub) && s.improc == Improc(sub)
    && s.teses == ThesisCounts(sub) && s.recomendacao == Recommend(sub)
  }

  /** A side carries the metrics, thesis table and recommendation of judge `j`'s own rows. */
  predicate ShowsJudge(s: Side, t: Table, j: string)
  {
    ShowsRows(s, Subset(t, j))
  }

  /** What a side with no selected judge shows: no rows, NaN percentages, no theses, the default text. */
  predicate EmptySide(s: Side)
  {
    s.total == 0 && s.proced.None? && s.improc.None? && s.teses == [] && s.recomendacao == ABORDAGEM_DOCUMENTAL
  }

  /**
   * The comparison mode: the second judge is picked from the list without
   * the first, so two selected judges differ, both have rows, and their rows
   * are disjoint parts of the table. With a single judge in the table there
   * is no second one to pick and the second side is empty, with the default
   * recommendation.
   */
  function Compare(t: Table, sel1: Option<string>, sel2: Option<string>): (sides: (Side, Side))
    requires SelectedFrom(sel1, Judges(t))
    requires SelectedFrom(sel2, SecondOptions(t, sel1))
    ensures sel1.Some? && sel2.Some? ==> sides.0.juiz != sides.1.juiz && sides.0.total > 0 && sides.1.total > 0
    ensures sides.0.total + sides.1.total <= |t|
    ensures sel2.None? <==> |Judges(t)| <= 1
    ensures sides.0.juiz == sel1 && sides.1.juiz == sel2
    ensures sel1.Some? ==> ShowsJudge(sides.0, t, sel1.value)
    ensures sel2.Some? ==> ShowsJudge(sides.1, t, sel2.value)
    ensures sel1.None? ==> EmptySide(sides.0)
    ensures sel2.None? ==> EmptySide(sides.1)
  {
    match (sel1, sel2)
    case (Some(j1), Some(j2)) =>
      ComparisonSubsets(t, j1, j2);
      DisjointSubsetsFit(t, j1, j2);
      (SideOf(t, sel1), SideOf(t, sel2))
    case (Some(j1), None) =>
      SecondJudgeOptionsAscending(Judges(t), j1);
      (SideOf(t, sel1), SideOf(t, sel2))
    case (None, _) =>
      (SideOf(t, sel1), SideOf(t, sel2))
  }

  /** Two disjoint judges' rows together are at most the whole table. */
  lemma {:induction false} DisjointSubsetsFit(t: Table, j1: string, j2: string)
    requires j1 != j2
    ensures |Subset(t, j1)| + |Subset(t, j2)| <= |t|
  {
    if t != [] {
      DisjointSubsetsFit(t[1..], j1, j2);
    }
  }
}

=== FILE: scenarios.dfy ===
/**
 * Small worked tables: the behaviour of the dashboards' computation on concrete inputs.
 */
module Scenarios {
  import opened Decisions
  import opened Frequency
  import opened Metrics
  import opened Partition
  import opened Recommendation
  import opened Prompt

  function Row4(juiz: string, resultado: string, tese: string): Decision
  {
    Decision(juiz, Some(resultado), Some(tese), None)
  }

  /** Judge "A" with outcomes Procedente, Procedente, Improcedente, Procedente: 75% and 25%. */
  lemma FourDecisions()
    ensures var t := [Row4("A", PROCEDENTE, "x"), Row4("A", PROCEDENTE, "x"), Row4("A", IMPROCEDENTE, "y"), Row4("A", PROCEDENTE, "x")];
      |Subset(t, "A")| == 4 && Proced(Subset(t, "A")) == Some(75.0) && Improc(Subset(t, "A")) == Some(25.0)
  {
    var t := [Row4("A", PROCEDENTE, "x"), Row4("A", PROCEDENTE, "x"), Row4("A", IMPROCEDENTE, "y"), Row4("A", PROCEDENTE, "x")];
    OneJudge(t, "A");
    var p, i := Some(PROCEDENTE), Some(IMPROCEDENTE);
    assert Column(t, Resultado) == [p, p, i, p];
    assert [p, p, i, p][1..] == [p, i, p] && [p, i, p][1..] == [i, p] && [i, p][1..] == [p] && [p][1..] == [];
    assert CountEqual([p], PROCEDENTE) == 1 && CountEqual([p], IMPROCEDENTE) == 0;
    assert CountEqual([i, p], PROCEDENTE) == 1 && CountEqual([i, p], IMPROCEDENTE) == 1;
    assert CountEqual([p, i, p], PROCEDENTE) == 2 && CountEqual([p, i, p], IMPROCEDENTE) == 1;
    assert OutcomeCount(t, PROCEDENTE) == 3 && OutcomeCount(t, IMPROCEDENTE) == 1;
    assert 3.0 / 4.0 == 0.75 && 1.0 / 4.0 == 0.25;
  }

  /** A judge whose theses are 40% "Inexistência de falha" gets the absence-of-fault recommendation. */
  lemma FortyPercentAbsenceOfFault(sub: Table)
    requires |sub| > 0 && 5 * ThesisCount(sub, INEXISTENCIA_DE_FALHA) == 2 * |sub|
    ensures Recommend(sub) == FOCAR_AUSENCIA_DE_FALHA
  {
  }

  /** A table of one judge is its own subset. */
  lemma {:induction false} OneJudge(t: Table, juiz: string)
    requires forall d :: d in t ==> d.juiz == juiz
    ensures Subset(t, juiz) == t
  {
    if t != [] {
      OneJudge(t[1..], juiz);
      assert t == [t[0]] + t[1..];
    }
  }

  /** An id absent from the table: no rows, NaN percentages, the default recommendation, no prompt. */
  lemma AbsentJudge(t: Table, juiz: string)
    requires juiz !in Judges(t)
    ensures Subset(t, juiz) == []
    ensures Proced(Subset(t, juiz)).None? && Improc(Subset(t, juiz)).None?
    ensures Recommend(Subset(t, juiz)) == ABORDAGEM_DOCUMENTAL
    ensures PromptInputs(Subset(t, juiz)) == Err(NoRows)
  {
    SubsetNonEmpty(t, juiz);
  }
}
